=== FILE: README.md ===
# Casual Python Clock For Work — a Dafny model of its state machines

The repository holds three near-duplicate desktop apps: a clock, a stopwatch, and a
"timer". Most of the code is toolkit wiring. Under the wiring there are a few small,
sequential state machines. This project models them as pure functions over immutable
records and proves what they promise.

- **Tick-counter stopwatch and timer** (src/stopwatch.py, src/timer.py), module `TickWatch`.
  - The state is a running flag, an integer counter and the label text.
  - Each one-second timeout shows the counter as `HH:MM:SS` and then adds one to it.
  - Construction and reset both render 0 and so leave the counter at 1.
  - The "timer" counts up exactly like the stopwatch.
- **Wall-clock stopwatch** of start.py (`StopwatchWindow`), module `WallStopwatch`.
  - `start` remembers `now - elapsed`, every refresh recomputes the elapsed time, and `stop` folds it back in.
  - The current time is an integer count of milliseconds passed in as `now`.
  - The display truncates to whole seconds. The label is green while running, red once stopped and white after a reset.
  - The pin toggle and window title of the Tk windows are in module `PinTitle`. The title suffix is modelled as the source file spells it: `" - "` and then the four characters U+00F0 U+0178 U+201C U+0152, which are the UTF-8 bytes of U+1F4CC PUSHPIN misread as Windows-1252.
- **The `HH:MM:SS` formatter**, module `TimeFormat`.
  - It splits a count with `divmod` and prints each field with Python's `{:02}`.
  - It has a parser, and the two are proved to round-trip for every integer, negative counts included.
- **View state**: font size with its bounds and default, fullscreen, pinned and menubar flags, and the two colour names. Modules `ViewState` and `Colours`.
  - There are two font-size policies: src/window_functions.py rejects an out-of-range change, and RunClock.py clamps it.
- **Input dispatch** of the four Qt windows (keys, wheel, mouse buttons, timer ticks), module `WindowEvents`.
  - It is built on the generic `Transitions.Replay`, which folds a step function over a sequence of inputs.

Python's `divmod` by a positive divisor floors, which is what Dafny's `/` and `%` do, so the
same expressions model negative counts faithfully. Python's `int()` on seconds truncates
toward zero; `WallStopwatch.WholeSeconds` writes that out.

## Model

| member | source | states |
|---|---|---|
| TimeFormat.Fields | src/stopwatch.py:259-260 | hours*3600 + minutes*60 + seconds is the count, minutes and seconds lie in [0, 60), and hours are uncapped and negative only for a negative count |
| TimeFormat.DecompositionUnique | src/stopwatch.py:259-260 | a count has exactly one such decomposition |
| TimeFormat.FieldsByMinutes | start.py:445-446 | divmod by 60 and then by 60 again writes any count as hours*3600 + minutes*60 + seconds with minutes and seconds in [0, 60) |
| TimeFormat.FieldsAgree | start.py:445-446 | splitting with divmod by 60 twice gives the same fields as divmod by 3600 and then 60, for every integer |
| TimeFormat.Digits | src/stopwatch.py:261 | `str(n)` of a natural number is a non-empty run of decimal digits, one digit exactly when n is below 10, with no leading zero unless n is 0 |
| TimeFormat.DigitsRoundTrip | src/stopwatch.py:261 | `str(n)` of a natural number consists of decimal digits that read back as n |
| TimeFormat.Pad2 | src/stopwatch.py:261 | a `{:02}` field is at least two characters, exactly two for a value in [0, 100), and starts with a minus sign exactly when the value is negative |
| TimeFormat.Pad2Canonical | src/stopwatch.py:261 | the `{:02}` text is canonical: a non-negative field is all digits with no leading zero from 10 on, and a negative field is a minus sign followed by digits with no leading zero, so there is no signed zero and no padding after the sign |
| TimeFormat.Pad2RoundTrip | src/stopwatch.py:261 | every `{:02}` field reads back as its value, negative values included |
| TimeFormat.Format | src/stopwatch.py:259-261 | the display of a count is at least eight characters, with colons six and three characters from the end, so minutes and seconds take two characters each and the hours take the rest |
| TimeFormat.FormatCanonical | src/stopwatch.py:259-261 | everything before the minutes is exactly the `{:02}` text of the hours, so a non-negative count shows unsigned hour digits and a display wider than eight characters has no leading zero |
| TimeFormat.FormatRoundTrip | src/stopwatch.py:259-261 | reading back the displayed text of any count gives that count, so nothing is lost or capped |
| TimeFormat.FormatInjective | src/stopwatch.py:259-261 | two different counts never share a display |
| TimeFormat.FormatWidth | src/stopwatch.py:261 | a non-negative count shows in exactly eight characters if and only if it is below 100 hours |
| TimeFormat.FormatZero | src/stopwatch.py:250-255 | a zero count shows as `00:00:00` |
| TimeFormat.ClockText | src/clock.py:198-200 | the wall-clock text is eight characters, reads back as the time of day, and begins with two unsigned digits that denote an hour below 24 |
| TimeFormat.ClockRollsOverAtMidnight | src/clock.py:198-200 | one second after `23:59:59` the clock shows `00:00:00` |
| TickWatch.UpdateTime | src/stopwatch.py:257-262 | the label shows the current counter, the counter grows by exactly one, the running flag is kept, and the label ends one behind the counter |
| TickWatch.UpdateTimeReadsBack | src/timer.py:226-231 | the label written reads back as the counter before the increment |
| TickWatch.Initial | src/stopwatch.py:63-69 | after construction the watch is stopped, shows `00:00:00`, and its counter is 1 |
| TickWatch.Toggle | src/stopwatch.py:242-248 | start/stop flips the running flag and leaves the counter and label alone |
| TickWatch.Reset | src/stopwatch.py:250-255 | after reset the watch is stopped, shows `00:00:00`, has counter 1, and equals the freshly constructed watch |
| TickWatch.Tick | src/stopwatch.py:71-74 | a timeout updates the time only while the timer runs and changes nothing while it is stopped |
| TickWatch.ConsistentReadsBack | src/timer.py:226-231 | in every consistent state the label reads back as one less than the counter |
| TickWatch.StepKeepsConsistent | src/timer.py:211-231 | a timeout, a start/stop and a reset each keep the label one behind the counter |
| TickWatch.RunKeepsConsistent | src/stopwatch.py:242-262 | any sequence of those events keeps the label one behind the counter |
| TickWatch.CounterMonotoneWithoutReset | src/timer.py:226-231 | without a reset the counter never decreases and grows by at most one per event |
| TickWatch.StoppedIgnoresTimeouts | src/stopwatch.py:242-248 | while stopped, any number of timeouts leave the state exactly as it was |
| TickWatch.RunningCountsTimeouts | src/stopwatch.py:257-262 | while running, n timeouts add exactly n to the counter and keep it running |
| WallStopwatch.WholeSeconds | start.py:445 | `int()` of a millisecond count in seconds: truncation toward zero, bounded within one second of the exact value |
| WallStopwatch.Display | start.py:445-448 | the Tk display of an elapsed time is the same text the Qt windows show for its whole seconds |
| WallStopwatch.DisplayReadsBack | start.py:445-448 | the Tk display reads back as the whole seconds elapsed |
| WallStopwatch.DisplayFiveSeconds | start.py:445-448 | 5.4 seconds show as `00:00:05` |
| WallStopwatch.DisplayOneOfEach | start.py:445-448 | 3661 seconds show as `01:01:01` |
| WallStopwatch.DisplayUnderASecond | start.py:445-448 | 0.999 seconds show as `00:00:00` |
| WallStopwatch.UpdateStopwatch | start.py:442-451 | while running the elapsed time becomes the reading at `now` and the label shows it in green; while stopped nothing changes; the reading at any time is unaffected |
| WallStopwatch.Start | start.py:423-428 | start is a no-op while running; otherwise it runs from the accumulated elapsed time, so the reading at t is elapsed + (t - now), and the label is green |
| WallStopwatch.Stop | start.py:430-434 | stop is a no-op while stopped; otherwise it folds the reading at `now` into elapsed, keeps the text and start time, and turns the label red |
| WallStopwatch.Reset | start.py:436-440 | reset gives a stopped watch with no start time, nothing elapsed, and a white `00:00:00`, whatever came before |
| WallStopwatch.ToggleStartStop | start.py:417-421 | the toggle always flips the running flag; when running it is `stop`, folding the reading at `now` into elapsed, and the label turns red; when stopped it is `start`, resuming from the accumulated elapsed time, and the label turns green |
| WallStopwatch.ElapsedSinceStart | start.py:423-446 | after a start, a refresh or a stop at a later time gives the earlier elapsed time plus the wall-clock time since the start |
| WallStopwatch.StopThenStartSameInstant | start.py:426-433 | a stop and a start at the same instant keep the elapsed time and every later reading |
| WallStopwatch.ReadingMonotone | start.py:442-444 | the reading never decreases as time moves forward |
| WallStopwatch.Opened | start.py:309-322 | the window opens stopped, with nothing elapsed, no start time, a white `00:00:00`, unpinned and titled "Stopwatch" |
| WallStopwatch.OpenedIsReset | start.py:312-319 | a newly opened window reads zero at every instant, and R or the Reset button leaves it exactly as opened |
| WallStopwatch.Handle | start.py:333-351 | Space toggles start/stop, R and the Reset button reset, the Start and Stop buttons start and stop, the refresh callback refreshes, and P toggles the pin and leaves the watch alone; no other input touches the pin, and the watch stays well formed |
| WallStopwatch.HandleKeepsReading | start.py:417-451 | every input except a reset leaves the reading at its own instant unchanged |
| WallStopwatch.ReplayReadingMonotone | start.py:417-451 | with inputs in time order and no reset, the final reading is at least the initial one |
| PinTitle.Opened | start.py:201-210 | a newly opened Tk window is unpinned, not topmost, and both its base title and its shown title are the title it was opened with |
| PinTitle.UpdateWindowTitle | start.py:284-288 | the title gets the pin suffix exactly when the window is pinned, and nothing else changes |
| PinTitle.TogglePinKeyboard | start.py:278-282 | P flips the pinned flag, makes the window topmost exactly when pinned, and retitles it |
| PinTitle.TogglePinCheckbutton | start.py:273-276 | the menu check button has the same effect as the P key |
| PinTitle.TogglePinTwice | start.py:396-400 | pinning twice restores a consistent window exactly |
| PinTitle.ClockWindowTitles | start.py:204 | the Tk clock window opens titled "Clock", P retitles it "Clock" plus the pin suffix, and a second P restores the opened window |
| PinTitle.TitleShowsPin | start.py:402-406 | the title ends in the pin suffix if and only if the window is pinned |
| ViewState.InitialSound | src/clock.py:27-34 | the initial view has font 200 within [50, 480], is not fullscreen or pinned, and is white on black |
| ViewState.ChangeFontSize | src/window_functions.py:23-27 | a change is applied only if the new size is within [min, max] inclusive; otherwise the view is left exactly as it was; only the size ever changes |
| ViewState.ChangeFontSizeKeepsRange | src/window_functions.py:23-27 | the rejecting policy never takes an in-range size out of range |
| ViewState.ApplyChangesKeepsRange | src/window_functions.py:23-27 | from an in-range size, any sequence of changes keeps the size in range and changes nothing else |
| ViewState.StepUpThenDown | src/window_functions.py:23-27 | +5 followed by -5 restores the view when both steps stay in range |
| ViewState.ClampFontSize | RunClock.py:191-197 | the clamped size is max(min, min(max, size + delta)), always within range, and nothing else changes |
| ViewState.PoliciesCompared | RunClock.py:191-197 | rejection and clamping agree on in-range results; past a bound, rejection keeps the size and clamping lands on the bound |
| ViewState.ResetFontSize | RunClock.py:207-210 | reset sets the size to the default, whatever it was, and nothing else changes |
| ViewState.ToggleFullscreen | src/window_functions.py:3-11 | the fullscreen flag flips and nothing else changes |
| ViewState.ToggleFullscreenTwice | src/window_functions.py:3-11 | toggling twice is the identity |
| ViewState.ToggleFullscreenWithMenubar | RunClock.py:179-189 | the fullscreen flag flips and afterwards the menubar is visible if and only if the window is not fullscreen |
| ViewState.ToggleFullscreenWithMenubarTwice | RunClock.py:179-189 | toggling twice restores the flag but shows a menubar that was hidden while windowed |
| ViewState.EscapeFullscreen | RunClock.py:174-176 | Escape leaves fullscreen, showing the menubar, and does nothing when not fullscreen |
| ViewState.ToggleMenubar | RunClock.py:172-173 | M/T flips menubar visibility and nothing else |
| ViewState.ToggleMenubarTwice | src/clock.py:247-253 | toggling the menubar twice is the identity |
| ViewState.TogglePin | src/clock.py:154-158 | the pinned flag flips and nothing else changes |
| ViewState.TogglePinTwice | src/stopwatch.py:226-230 | toggling the pin twice is the identity |
| Colours.SetPresetColours | src/colour_functions.py:15-18 | background and foreground become exactly the given values, background first, and nothing else changes |
| Colours.SwapColours | RunClock.py:88 | Swap Colours exchanges background and foreground and nothing else |
| Colours.SwapColoursTwice | src/clock.py:115-117 | swapping twice is the identity |
| Colours.PresetThenSwap | src/colour_functions.py:15-18 | a preset followed by a swap is the preset with its colours exchanged |
| Colours.PickBackground | src/colour_functions.py:3-7 | a valid pick replaces only the background; a cancelled dialog changes nothing |
| Colours.PickForeground | src/colour_functions.py:9-13 | a valid pick replaces only the foreground; a cancelled dialog changes nothing |
| Colours.PicksCommute | src/colour_functions.py:3-13 | the two dialogs can be applied in either order |
| Colours.PicksAsPreset | RunClock.py:245-263 | two valid picks amount to choosing that pair as a preset |
| WindowEvents.WheelStep | src/stopwatch.py:313-316 | a wheel delta above zero requests +5; any other delta, zero included, requests -5 |
| WindowEvents.ClockKey | src/clock.py:202-217 | `+`/`=` request +5, `-`/`_` request -5, `0`/F5 reset the size, P flips only the pin, F/F11 only fullscreen, M/T only the menubar, help keys change nothing; the font stays in range |
| WindowEvents.ClockHandle | src/clock.py:242-245 | keys go to the key handler, the wheel goes through the rejecting policy, mouse buttons and ticks change nothing, and the font stays in range |
| WindowEvents.WheelUpThenDown | src/clock.py:242-245 | a notch up then a notch down restores the view when both stay in range |
| WindowEvents.ClockPinTwice | src/clock.py:206-207 | pressing P twice restores the view |
| WindowEvents.ClockStaysSized | src/clock.py:202-245 | no sequence of inputs moves the clock's font out of [50, 480] |
| WindowEvents.RunClockKey | RunClock.py:160-176 | font keys clamp, F/F11 couple fullscreen to the menubar, Escape leaves fullscreen and shows the menubar and is a no-op when windowed, M/T flip the menubar, help keys, P, Space, R and unbound keys change nothing, and the font stays in range |
| WindowEvents.RunClockHandle | RunClock.py:265-281 | keys go to the key handler, the wheel clamps, the middle button resets the size, a left double click toggles fullscreen with the menubar, and other buttons and ticks change nothing |
| WindowEvents.RunClockStaysSized | RunClock.py:191-197 | from a sound view, no sequence of inputs moves RunClock's font out of range |
| WindowEvents.RunClockWheelSaturates | RunClock.py:265-271 | at the maximum size a further notch up changes nothing |
| WindowEvents.WatchInitial | src/stopwatch.py:28-69 | the stopwatch and timer windows open with the initial view, stopped, showing `00:00:00`, with counter 1 |
| WindowEvents.StopwatchKey | src/stopwatch.py:291-311 | view keys act as in the clock, Space toggles the counter, R resets it, and other keys leave it alone |
| WindowEvents.TimerKey | src/timer.py:260-277 | the timer's keys act as the stopwatch's, except that P does nothing; R always gives a stopped `00:00:00` with counter 1 |
| WindowEvents.WatchMouseOrTick | src/stopwatch.py:313-326 | the wheel goes through the rejecting policy with ±5, the middle button resets the size, a left double click toggles fullscreen, other buttons change nothing, and a timer timeout is one counter tick |
| WindowEvents.StopwatchHandleKeepsInvariant | src/stopwatch.py:291-326 | every stopwatch input keeps the font in range and the label one behind the counter |
| WindowEvents.TimerHandleKeepsInvariant | src/timer.py:260-296 | every timer input keeps the font in range and the label one behind the counter |
| WindowEvents.WatchWindowsStayConsistent | src/timer.py:260-296 | after any inputs from start-up, both windows keep the font in range and the label one behind the counter |
| WindowEvents.TimerResetEitherWay | src/timer.py:266-267 | R gives the same result whether or not the timer was running |

## Left out

- Widgets, menus, message boxes, help text, `webbrowser`, drag-to-move and `close_window` are toolkit plumbing with no state of the model's kind.
- Window geometry from font metrics, and the scaling in `CustomFontLabel.render_text`, depend on foreign font metrics and floating point.
- `QTimer` and Tk `after` scheduling are not modelled. Each timer tick or refresh is an explicit input (`Timeout`, `Refresh`).
- Wall-clock reads are not modelled. `time.time()` becomes the integer millisecond parameter `now`, and the clock windows' local time becomes an integer count of seconds. Sub-millisecond float precision is not modelled.
- `WallStopwatch.Start`: the source reads `time.time()` twice, once in `start` and once in the `update_stopwatch` it calls. The model uses one instant for both, so a start shows exactly the elapsed time it resumes from.
- Loading `themes.json` and the hard-coded preset tables are left out. Each entry is one call of `Colours.SetPresetColours`.
- The Random colour action is left out because it depends on `os.urandom`. It is also just `SetPresetColours`.
- Font-file loading and the thin launchers (startClock.py, startStopwatch.py, startTimer.py) are left out.
- The start.py main menu that opens the windows is left out.
- `WallStopwatch.Reading` and the operations that use it require `Valid`: a running watch has a start time. Every reachable state satisfies this, because only `start` sets running, and it sets the start time too.
- `ViewState.Initial`: the menubar is assumed visible at start-up. That is the toolkit's default, and the source never sets it.
- The `updateFontSize` that src/stopwatch.py defines twice restyles the label and, outside fullscreen, resizes the window through `update_window_size_normal`. It changes none of the modelled state, and window geometry is left out with the other widget code.

=== FILE: colours.dfy ===
/**
  The colour actions of src/colour_functions.py and their copies in RunClock.py.

  A colour dialog either returns a valid colour, whose `name()` becomes the new colour, or an
  invalid one (the dialog was cancelled), which changes nothing. The dialog's result is the
  parameter `picked`: `Some(name)` for a valid colour, `None` otherwise.
*/
module Colours {
  import opened Wrappers
  import opened ViewState

  /** `set_preset_colors(bg_color, fg_color)` / `setPresetColors`: set both colours to exactly
      the given values. Note the argument order: background first. */
  function SetPresetColours(v: View, background: string, foreground: string): (r: View)
    ensures r.background == background && r.foreground == foreground
    ensures r == v.(background := r.background, foreground := r.foreground)
  {
    v.(background := background, foreground := foreground)
  }

  /** The "Swap Colours" action: `set_preset_colors(self, self.foreground_color,
      self.background_color)`. */
  function SwapColours(v: View): (r: View)
    ensures r.background == v.foreground && r.foreground == v.background
    ensures r == v.(background := r.background, foreground := r.foreground)
  {
    SetPresetColours(v, v.foreground, v.background)
  }

  /** Swapping twice is the identity. */
  lemma SwapColoursTwice(v: View)
    ensures SwapColours(SwapColours(v)) == v
  {
  }

  /** A preset or theme entry followed by swapping gives the entry with its colours exchanged. */
  lemma PresetThenSwap(v: View, background: string, foreground: string)
    ensures SwapColours(SetPresetColours(v, background, foreground))
            == SetPresetColours(v, foreground, background)
  {
  }

  /** `set_background_color`: a valid pick replaces only the background; a cancelled or
      invalid pick leaves everything as it was. */
  function PickBackground(v: View, picked: Option<string>): (r: View)
    ensures picked.None? ==> r == v
    ensures picked.Some? ==> r.background == picked.value
    ensures r == v.(background := r.background)
  {
    match picked
    case None => v
    case Some(name) => v.(background := name)
  }

  /** `set_foreground_color`: a valid pick replaces only the foreground; a cancelled or
      invalid pick leaves everything as it was. */
  function PickForeground(v: View, picked: Option<string>): (r: View)
    ensures picked.None? ==> r == v
    ensures picked.Some? ==> r.foreground == picked.value
    ensures r == v.(foreground := r.foreground)
  {
    match picked
    case None => v
    case Some(name) => v.(foreground := name)
  }

  /** The two dialogs touch disjoint fields, so their order does not matter. */
  lemma PicksCommute(v: View, background: Option<string>, foreground: Option<string>)
    ensures PickForeground(PickBackground(v, background), foreground)
            == PickBackground(PickForeground(v, foreground), background)
  {
  }

  /** Two valid picks amount to choosing that pair as a preset. */
  lemma PicksAsPreset(v: View, background: string, foreground: string)
    ensures PickForeground(PickBackground(v, Some(background)), Some(foreground))
            == SetPresetColours(v, background, foreground)
  {
  }
}

=== FILE: pin_title.dfy ===
/**
  The pin toggle of the Tk windows in start.py (`ClockWindow` and `StopwatchWindow`): the
  `is_pinned` variable drives the stay-on-top attribute and the window title, which carries a
  suffix exactly while pinned.
*/
module PinTitle {

  /** The suffix as the source file spells it: `" - "` followed by the four characters
      U+00F0 U+0178 U+201C U+0152. They are the UTF-8 bytes of U+1F4CC PUSHPIN read as
      Windows-1252, and since Python decodes the file as UTF-8 they are what the title shows. */
  const PinSuffix := " - \U{00F0}\U{0178}\U{201C}\U{0152}"
  const ClockTitle := "Clock"
  const StopwatchTitle := "Stopwatch"

  datatype PinnedWindow = PinnedWindow(baseTitle: string, pinned: bool, topmost: bool, title: string)

  /** A freshly opened window: unpinned, titled with its base name. */
  function Opened(baseTitle: string): (r: PinnedWindow)
    ensures !r.pinned && !r.topmost && TitleMatches(r)
    ensures r.baseTitle == baseTitle && r.title == baseTitle
  {
    PinnedWindow(baseTitle, false, false, baseTitle)
  }

  /** The title shows the pin exactly when the window is pinned. */
  predicate TitleMatches(w: PinnedWindow) {
    w.title == (if w.pinned then w.baseTitle + PinSuffix else w.baseTitle)
  }

  /** `update_window_title`. */
  function UpdateWindowTitle(w: PinnedWindow): (r: PinnedWindow)
    ensures TitleMatches(r)
    ensures r == w.(title := r.title)
  {
    if w.pinned then w.(title := w.baseTitle + PinSuffix) else w.(title := w.baseTitle)
  }

  /** `toggle_pin_keyboard` (the P key): flip `is_pinned`, make the window topmost exactly
      when pinned, and retitle it. */
  function TogglePinKeyboard(w: PinnedWindow): (r: PinnedWindow)
    ensures r.pinned == !w.pinned
    ensures r.topmost == r.pinned
    ensures TitleMatches(r)
    ensures r.baseTitle == w.baseTitle
  {
    var pinned := !w.pinned;
    UpdateWindowTitle(w.(pinned := pinned, topmost := pinned))
  }

  /** `toggle_pin_checkbutton`: Tk has already flipped the check button's variable when the
      command runs; the command then applies it as the keyboard path does. */
  function TogglePinCheckbutton(w: PinnedWindow): (r: PinnedWindow)
    ensures r == TogglePinKeyboard(w)
  {
    var flipped := w.(pinned := !w.pinned);
    UpdateWindowTitle(flipped.(topmost := flipped.pinned))
  }

  /** The Tk clock window (`ClockWindow`): it opens titled "Clock", and P pins it under the
      title "Clock" followed by the suffix. */
  lemma ClockWindowTitles()
    ensures Opened(ClockTitle).title == "Clock"
    ensures TogglePinKeyboard(Opened(ClockTitle)).title == "Clock" + PinSuffix
    ensures TogglePinKeyboard(Opened(ClockTitle)).pinned
    ensures TogglePinKeyboard(TogglePinKeyboard(Opened(ClockTitle))) == Opened(ClockTitle)
  {
  }

  /** Pinning twice returns a consistent window to where it was. */
  lemma TogglePinTwice(w: PinnedWindow)
    requires TitleMatches(w) && w.topmost == w.pinned
    ensures TogglePinKeyboard(TogglePinKeyboard(w)) == w
  {
  }

  /** The title carries the pin suffix if and only if the window is pinned. */
  lemma TitleShowsPin(w: PinnedWindow)
    requires TitleMatches(w)
    ensures w.pinned <==> (|w.title| > |w.baseTitle| && w.title[|w.baseTitle|..] == PinSuffix)
  {
  }
}

=== FILE: tick_watch.dfy ===
/**
  The counter behind the Qt stopwatch (src/stopwatch.py) and the Qt "timer" (src/timer.py).
  Both windows hold the same three things: whether the one-second `QTimer` is running, an
  integer `elapsed_time`, and the text of the label. The "timer" counts up exactly like the
  stopwatch; there is no countdown.

  Every call to `updateTime` shows the counter and then adds one to it, so the label always
  shows one less than the counter: construction and reset both end with the counter at 1.
*/
module TickWatch {
  import opened Wrappers
  import opened TimeFormat
  import opened Transitions

  datatype TickWatch = TickWatch(running: bool, elapsed: int, text: string)

  /** The fields set in `__init__`, before `createLabel` has written the label. */
  const Constructed := TickWatch(false, 0, "")

  /** What the label shows for a counter value. */
  function Display(elapsed: int): string {
    Format(elapsed)
  }

  /** The label shows exactly one less than the counter, and the counter has been shown at
      least once. Every reachable state satisfies this. */
  predicate Consistent(w: TickWatch) {
    w.elapsed >= 1 && w.text == Display(w.elapsed - 1)
  }

  /** A consistent label reads back as one less than the counter. */
  lemma ConsistentReadsBack(w: TickWatch)
    requires Consistent(w)
    ensures Parse(w.text) == Some(w.elapsed - 1)
  {
    var shown := w.elapsed - 1;
    assert w.text == Format(shown);
    FormatRoundTrip(shown);
  }

  /** `updateTime`: render the current counter, then increment it by one. */
  function UpdateTime(w: TickWatch): (r: TickWatch)
    ensures r.text == Display(w.elapsed)
    ensures r.elapsed == w.elapsed + 1
    ensures r.running == w.running
    ensures w.elapsed >= 0 ==> Consistent(r)
  {
    TickWatch(w.running, w.elapsed + 1, Display(w.elapsed))
  }

  /** The label `updateTime` writes reads back as the counter it was given. */
  lemma UpdateTimeReadsBack(w: TickWatch)
    ensures Parse(UpdateTime(w).text) == Some(w.elapsed)
    ensures UpdateTime(w).elapsed - 1 == w.elapsed
  {
    FormatRoundTrip(w.elapsed);
  }

  /** The window after `__init__` and `initUI`: `createLabel` calls `updateTime` once. */
  function Initial(): (r: TickWatch)
    ensures !r.running
    ensures r.text == "00:00:00"
    ensures r.elapsed == 1
    ensures Consistent(r)
  {
    FormatZero();
    UpdateTime(Constructed)
  }

  /** `toggleStopwatch` / `toggleTimer`: start or stop the one-second timer; the counter and
      the label are untouched. */
  function Toggle(w: TickWatch): (r: TickWatch)
    ensures r.running == !w.running
    ensures r.elapsed == w.elapsed && r.text == w.text
  {
    w.(running := !w.running)
  }

  /** `resetStopwatch` / `resetTimer`: zero the counter, render it (which leaves it at 1),
      stop the timer. The prior state is irrelevant. */
  function Reset(w: TickWatch): (r: TickWatch)
    ensures !r.running
    ensures r.text == "00:00:00"
    ensures r.elapsed == 1
    ensures r == Initial()
  {
    FormatZero();
    var rendered := UpdateTime(w.(elapsed := 0));
    rendered.(running := false)
  }

  /** One timeout of the `QTimer`: it fires only while started. */
  function Tick(w: TickWatch): (r: TickWatch)
    ensures w.running ==> r == UpdateTime(w)
    ensures !w.running ==> r == w
  {
    if w.running then UpdateTime(w) else w
  }

  /** The inputs that reach the counter: timer timeouts, Space (or the Start/Stop menu entry),
      and R (or the Reset menu entry). */
  datatype WatchEvent = Timeout | StartStop | ResetPressed

  function Step(w: TickWatch, e: WatchEvent): TickWatch {
    match e
    case Timeout => Tick(w)
    case StartStop => Toggle(w)
    case ResetPressed => Reset(w)
  }

  function Run(w: TickWatch, events: seq<WatchEvent>): TickWatch {
    Replay(Step, w, events)
  }

  /** Each event keeps the label one behind the counter. */
  lemma StepKeepsConsistent(w: TickWatch, e: WatchEvent)
    requires Consistent(w)
    ensures Consistent(Step(w, e))
  {
    match e
    case Timeout =>
    case StartStop =>
    case ResetPressed =>
  }

  /** Every sequence of events keeps the label one behind the counter. */
  lemma RunKeepsConsistent(w: TickWatch, events: seq<WatchEvent>)
    requires Consistent(w)
    ensures Consistent(Run(w, events))
  {
    forall x: TickWatch, e: WatchEvent | Consistent(x)
      ensures Consistent(Step(x, e))
    {
      StepKeepsConsistent(x, e);
    }
    ReplayPreserves(Step, Consistent, w, events);
  }

  /** Without a reset the counter never decreases, and it grows by at most one per event. */
  lemma {:induction false} CounterMonotoneWithoutReset(w: TickWatch, events: seq<WatchEvent>)
    requires ResetPressed !in events
    ensures w.elapsed <= Run(w, events).elapsed <= w.elapsed + |events|
    decreases |events|
  {
    if |events| > 0 {
      assert events[0] != ResetPressed;
      assert forall i :: 0 <= i < |events| - 1 ==> events[1..][i] == events[i + 1];
      CounterMonotoneWithoutReset(Step(w, events[0]), events[1..]);
    }
  }

  /** `n` consecutive timer timeouts. */
  function Timeouts(n: nat): (events: seq<WatchEvent>)
    ensures |events| == n
    ensures forall e <- events :: e == Timeout
  {
    if n == 0 then [] else [Timeout] + Timeouts(n - 1)
  }

  lemma RunFirst(w: TickWatch, e: WatchEvent, rest: seq<WatchEvent>)
    ensures Run(w, [e] + rest) == Run(Step(w, e), rest)
  {
    assert ([e] + rest)[1..] == rest;
  }

  /** While the timer is stopped, timeouts cannot happen and nothing moves. */
  lemma {:induction false} StoppedIgnoresTimeouts(w: TickWatch, n: nat)
    requires !w.running
    ensures Run(w, Timeouts(n)) == w
    decreases n
  {
    if n > 0 {
      RunFirst(w, Timeout, Timeouts(n - 1));
      StoppedIgnoresTimeouts(w, n - 1);
    }
  }

  /** While running, n timeouts add exactly n to the counter. */
  lemma RunningCountsTimeouts(w: TickWatch, n: nat)
    requires w.running
    ensures Run(w, Timeouts(n)).running
    ensures Run(w, Timeouts(n)).elapsed == w.elapsed + n
  {
    ReplayCounts(Step, (x: TickWatch) => x.running, (x: TickWatch) => x.elapsed,
                 (e: WatchEvent) => e == Timeout, w, Timeouts(n));
  }
}

=== FILE: time_format.dfy ===
/**
  The `HH:MM:SS` text shown by every window.

  The tick-counter windows (src/stopwatch.py, src/timer.py) split a count of seconds with
  `divmod(n, 3600)` and then `divmod(remainder, 60)`; the Tk stopwatch (start.py) splits with
  `divmod(n, 60)` twice. Each field is printed with Python's `{:02}` format: at least two
  characters, zero-padded after the sign, hours never capped.

  Python's `divmod` by a positive divisor floors the quotient and leaves a non-negative
  remainder, which is exactly what Dafny's `/` and `%` compute for a positive divisor, so the
  same expressions model both languages for negative counts as well.
*/
module TimeFormat {
  import opened Wrappers

  const SecondsPerMinute := 60
  const SecondsPerHour := 3600
  const SecondsPerDay := 86400

  // ---------------------------------------------------------------- digits

  function DigitChar(d: int): (c: char)
    requires 0 <= d < 10
    ensures '0' <= c <= '9'
  {
    ('0' as int + d) as char
  }

  function DigitValue(c: char): (d: int)
    requires '0' <= c <= '9'
    ensures 0 <= d < 10
  {
    c as int - '0' as int
  }

  predicate IsDigits(s: string) {
    forall i :: 0 <= i < |s| ==> '0' <= s[i] <= '9'
  }

  /** The number a string of decimal digits denotes, most significant digit first. */
  function DigitsValue(s: string): nat
    requires IsDigits(s)
  {
    if |s| == 0 then 0 else DigitsValue(s[..|s| - 1]) * 10 + DigitValue(s[|s| - 1])
  }

  /** Python's `str(n)` for a non-negative integer: decimal digits, no leading zero. */
  function Digits(n: nat): (r: string)
    ensures 1 <= |r| && IsDigits(r)
    ensures |r| == 1 <==> n < 10
    ensures n > 0 ==> r[0] != '0'
  {
    if n < 10 then [DigitChar(n)] else Digits(n / 10) + [DigitChar(n % 10)]
  }

  /** Reading the digits back gives the number that was printed. */
  lemma {:induction false} DigitsRoundTrip(n: nat)
    ensures DigitsValue(Digits(n)) == n
  {
    if n >= 10 {
      var front := Digits(n / 10);
      var last := DigitChar(n % 10);
      assert (front + [last])[..|front|] == front;
      DigitsRoundTrip(n / 10);
    }
  }

  // ---------------------------------------------------------------- one field

  /** Python's `f"{n:02}"`: width at least two, zero padding goes after the sign. */
  function Pad2(n: int): (r: string)
    ensures |r| >= 2
    ensures 0 <= n < 100 ==> |r| == 2
    ensures r[0] == '-' <==> n < 0
  {
    if n < 0 then "-" + Digits(-n)
    else if n < 10 then "0" + Digits(n)
    else Digits(n)
  }

  /** Inverse of `Pad2`: an optional minus sign followed by at least one digit. */
  function ParseField(s: string): Option<int> {
    if 2 <= |s| && s[0] == '-' && IsDigits(s[1..]) then
      var magnitude: int := DigitsValue(s[1..]);
      Some(-magnitude)
    else if 1 <= |s| && IsDigits(s) then Some(DigitsValue(s))
    else None
  }

  /** A field below 100 prints as exactly its tens digit and its units digit. */
  lemma Pad2Small(n: int)
    requires 0 <= n < 100
    ensures Pad2(n) == [DigitChar(n / 10), DigitChar(n % 10)]
  {
    if n >= 10 {
      assert Digits(n / 10) == [DigitChar(n / 10)];
    }
  }

  lemma TwoDigitsValue(a: char, b: char)
    requires '0' <= a <= '9' && '0' <= b <= '9'
    ensures DigitsValue([a, b]) == DigitValue(a) * 10 + DigitValue(b)
  {
    var s := [a, b];
    assert s[..1] == [a];
    assert [a][..0] == [];
    assert DigitsValue([a]) == DigitsValue([]) * 10 + DigitValue(a);
    assert DigitsValue(s) == DigitsValue(s[..1]) * 10 + DigitValue(s[1]);
  }

  lemma ParseSigned(digits: string)
    requires 1 <= |digits| && IsDigits(digits)
    ensures ParseField("-" + digits) == Some(-(DigitsValue(digits) as int))
  {
    var s := "-" + digits;
    assert s[1..] == digits;
  }

  lemma NegativeFieldRoundTrip(n: int)
    requires n < 0
    ensures ParseField(Pad2(n)) == Some(n)
  {
    var m: nat := -n;
    var digits := Digits(m);
    DigitsRoundTrip(m);
    ParseSigned(digits);
    assert Pad2(n) == "-" + digits;
  }

  lemma SmallFieldRoundTrip(n: int)
    requires 0 <= n < 10
    ensures ParseField(Pad2(n)) == Some(n)
  {
    Pad2Small(n);
    var s := [DigitChar(0), DigitChar(n)];
    assert IsDigits(s);
    TwoDigitsValue(DigitChar(0), DigitChar(n));
  }

  lemma WideFieldRoundTrip(n: int)
    requires n >= 10
    ensures ParseField(Pad2(n)) == Some(n)
  {
    var s := Digits(n);
    assert Pad2(n) == s;
    assert s[0] != '-';
    DigitsRoundTrip(n);
  }

  lemma Pad2RoundTrip(n: int)
    ensures ParseField(Pad2(n)) == Some(n)
  {
    if n < 0 {
      NegativeFieldRoundTrip(n);
    } else if n < 10 {
      SmallFieldRoundTrip(n);
    } else {
      WideFieldRoundTrip(n);
    }
  }

  /** `{:02}` writes no text but the canonical one: a non-negative field is all digits with
      no leading zero from 10 on, and a negative one is a minus sign followed by digits with
      no leading zero (so no signed zero, and no padding after the sign). */
  lemma Pad2Canonical(n: int)
    ensures n >= 0 ==> IsDigits(Pad2(n))
    ensures n >= 10 ==> Pad2(n)[0] != '0'
    ensures n < 0 ==> IsDigits(Pad2(n)[1..]) && Pad2(n)[1] != '0'
  {
    if n < 0 {
      assert Pad2(n)[1..] == Digits(-n);
    } else if n < 10 {
      assert Pad2(n) == "0" + Digits(n);
    }
  }

  // ---------------------------------------------------------------- three fields

  datatype Hms = Hms(hours: int, minutes: int, seconds: int)

  /** The decomposition every display promises: whole hours (unbounded, and negative only for a
      negative count), then minutes and seconds each in [0, 60). */
  predicate Decomposes(total: int, f: Hms) {
    && f.hours * SecondsPerHour + f.minutes * SecondsPerMinute + f.seconds == total
    && 0 <= f.minutes < 60
    && 0 <= f.seconds < 60
  }

  /** `divmod(total, 3600)` and then `divmod(remainder, 60)`, as in src/stopwatch.py. */
  function Fields(total: int): (f: Hms)
    ensures Decomposes(total, f)
    ensures total >= 0 <==> f.hours >= 0
  {
    var hours, remainder := total / SecondsPerHour, total % SecondsPerHour;
    Hms(hours, remainder / SecondsPerMinute, remainder % SecondsPerMinute)
  }

  /** `divmod(total, 60)` and then `divmod(minutes, 60)`, as in start.py. */
  function FieldsByMinutes(total: int): (f: Hms)
    ensures Decomposes(total, f)
  {
    var minutes, seconds := total / SecondsPerMinute, total % SecondsPerMinute;
    var f := Hms(minutes / SecondsPerMinute, minutes % SecondsPerMinute, seconds);
    assert minutes == f.hours * 60 + f.minutes;
    assert total == minutes * 60 + f.seconds;
    f
  }

  /** There is only one way to write a count as hours, minutes and seconds. */
  lemma DecompositionUnique(total: int, f: Hms, g: Hms)
    requires Decomposes(total, f) && Decomposes(total, g)
    ensures f == g
  {
    var dh, dm := f.hours - g.hours, f.minutes - g.minutes;
    assert (dh * 60 + dm) * 60 == g.seconds - f.seconds;
    assert dh * 60 + dm == 0;
    assert dh * 60 == g.minutes - f.minutes;
  }

  /** The two ways the source splits a count agree on every integer, negative ones included. */
  lemma FieldsAgree(total: int)
    ensures FieldsByMinutes(total) == Fields(total)
  {
    DecompositionUnique(total, FieldsByMinutes(total), Fields(total));
  }

  function Join(f: Hms): string {
    Pad2(f.hours) + ":" + Pad2(f.minutes) + ":" + Pad2(f.seconds)
  }

  /** `f"{hours:02}:{minutes:02}:{seconds:02}"` of a count of seconds. */
  function Format(total: int): (r: string)
    ensures |r| >= 8
    ensures r[|r| - 6] == ':' && r[|r| - 3] == ':'
  {
    Join(Fields(total))
  }

  /** Cuts a display at its last two colons: hours, then two characters of minutes, then two
      of seconds. */
  function Split(text: string): Option<(string, string, string)> {
    var n := |text|;
    if n < 8 || text[n - 6] != ':' || text[n - 3] != ':' then None
    else Some((text[..n - 6], text[n - 5..n - 3], text[n - 2..]))
  }

  /** Reads a display back: hours as `ParseField` reads them, then two-digit minutes and
      seconds below 60. */
  function Parse(text: string): Option<int> {
    match Split(text)
    case None => None
    case Some((hh, mm, ss)) =>
      if !IsDigits(mm) || !IsDigits(ss) then None
      else
        match ParseField(hh)
        case None => None
        case Some(h) =>
          var m, s := DigitsValue(mm), DigitsValue(ss);
          if 60 <= m || 60 <= s then None else Some(h * SecondsPerHour + m * SecondsPerMinute + s)
  }

  /** A zero count shows as `00:00:00`. */
  lemma FormatZero()
    ensures Format(0) == "00:00:00"
  {
    assert Fields(0) == Hms(0, 0, 0);
    Pad2Small(0);
  }

  lemma SplitJoined(hh: string, mm: string, ss: string)
    requires |hh| >= 2 && |mm| == 2 && |ss| == 2
    ensures Split(hh + ":" + mm + ":" + ss) == Some((hh, mm, ss))
  {
    var text := hh + ":" + mm + ":" + ss;
    var n := |text|;
    assert n == |hh| + 6;
    assert text[..n - 6] == hh;
    assert text[n - 5..n - 3] == mm;
    assert text[n - 2..] == ss;
  }

  /** A field in [0, 60) prints as two digits that read back as itself. */
  lemma SmallField(n: int)
    requires 0 <= n < 60
    ensures IsDigits(Pad2(n)) && DigitsValue(Pad2(n)) == n
  {
    Pad2Small(n);
    TwoDigitsValue(DigitChar(n / 10), DigitChar(n % 10));
  }

  lemma JoinRoundTrip(f: Hms)
    requires 0 <= f.minutes < 60 && 0 <= f.seconds < 60
    ensures Parse(Join(f)) == Some(f.hours * SecondsPerHour + f.minutes * SecondsPerMinute + f.seconds)
  {
    SplitJoined(Pad2(f.hours), Pad2(f.minutes), Pad2(f.seconds));
    SmallField(f.minutes);
    SmallField(f.seconds);
    Pad2RoundTrip(f.hours);
  }

  /** Every display reads back as the count it shows: nothing is lost or capped. */
  lemma FormatRoundTrip(total: int)
    ensures Parse(Format(total)) == Some(total)
  {
    JoinRoundTrip(Fields(total));
  }

  /** Different counts never share a display. */
  lemma FormatInjective(a: int, b: int)
    requires Format(a) == Format(b)
    ensures a == b
  {
    FormatRoundTrip(a);
    FormatRoundTrip(b);
  }

  /** A non-negative count fills exactly eight characters until 100 hours; from then on the
      hours field simply grows. */
  lemma {:induction false} FormatWidth(total: int)
    requires total >= 0
    ensures |Format(total)| == 8 <==> total < 100 * SecondsPerHour
  {
    var f := Fields(total);
    if total >= 100 * SecondsPerHour {
      assert f.hours >= 100;
      assert |Digits(f.hours)| != 1;
      DigitsAtLeastThree(f.hours);
    }
  }

  /** The hours segment of the display, everything before the last six characters, is
      exactly the `{:02}` text of the hours: unsigned digits for a non-negative count, and a
      leading zero only while it is two characters wide. */
  lemma FormatCanonical(total: int)
    ensures Format(total)[..|Format(total)| - 6] == Pad2(Fields(total).hours)
    ensures total >= 0 ==> IsDigits(Format(total)[..|Format(total)| - 6])
    ensures |Format(total)| > 8 ==> Format(total)[0] != '0'
  {
    var f := Fields(total);
    var h := Pad2(f.hours);
    var r := Format(total);
    assert r == h + (":" + Pad2(f.minutes) + ":" + Pad2(f.seconds));
    assert |r| == |h| + 6 by {
      Pad2Small(f.minutes);
      Pad2Small(f.seconds);
    }
    assert r[..|r| - 6] == h;
    Pad2Canonical(f.hours);
    if |r| > 8 {
      assert r[0] == h[0];
      if f.hours < 0 {
        assert h[0] == '-';
      } else {
        assert f.hours >= 10;
      }
    }
  }

  lemma {:induction false} DigitsAtLeastThree(n: nat)
    requires n >= 100
    ensures |Digits(n)| >= 3
  {
    assert |Digits(n / 10)| >= 2;
  }

  /** The wall-clock display (`strftime("%H:%M:%S")`), given the local time as seconds since
      some local midnight: always eight characters, hours below 24. */
  function ClockText(localSeconds: int): (r: string)
    ensures |r| == 8
    ensures Parse(r) == Some(localSeconds % SecondsPerDay)
    ensures IsDigits(r[..2]) && DigitsValue(r[..2]) < 24
  {
    var t := localSeconds % SecondsPerDay;
    FormatRoundTrip(t);
    FormatWidth(t);
    Pad2Small(Fields(t).hours);
    TwoDigitsValue(DigitChar(Fields(t).hours / 10), DigitChar(Fields(t).hours % 10));
    Format(t)
  }

  lemma FormatLastSecondOfDay()
    ensures Format(SecondsPerDay - 1) == "23:59:59"
  {
    assert Fields(SecondsPerDay - 1) == Hms(23, 59, 59);
    Pad2Small(23);
    Pad2Small(59);
  }

  /** One second after 23:59:59 the clock reads 00:00:00. */
  lemma ClockRollsOverAtMidnight()
    ensures ClockText(SecondsPerDay - 1) == "23:59:59"
    ensures ClockText(SecondsPerDay) == "00:00:00"
  {
    FormatLastSecondOfDay();
    FormatZero();
    assert (SecondsPerDay - 1) % SecondsPerDay == SecondsPerDay - 1;
    assert SecondsPerDay % SecondsPerDay == 0;
  }
}

=== FILE: transitions.dfy ===
/** Feeding a sequence of inputs, one at a time, through a transition function. */
module Transitions {

  function Replay<S, E>(step: (S, E) -> S, s: S, events: seq<E>): S
    decreases |events|
  {
    if |events| == 0 then s else Replay(step, step(s, events[0]), events[1..])
  }

  /** A property every single step preserves holds after any sequence of steps. */
  lemma {:induction false} ReplayPreserves<S, E>(step: (S, E) -> S, inv: S -> bool, s: S, events: seq<E>)
    requires forall x, e :: inv(x) ==> inv(step(x, e))
    requires inv(s)
    ensures inv(Replay(step, s, events))
    decreases |events|
  {
    if |events| > 0 {
      ReplayPreserves(step, inv, step(s, events[0]), events[1..]);
    }
  }

  /** If every counted input, applied to a state satisfying `inv`, keeps `inv` and adds one to
      `measure`, then a sequence of counted inputs adds its length. */
  lemma {:induction false} ReplayCounts<S, E>(step: (S, E) -> S, inv: S -> bool, measure: S -> int,
                                             counted: E -> bool, s: S, events: seq<E>)
    requires forall x, e :: inv(x) && counted(e) ==> inv(step(x, e)) && measure(step(x, e)) == measure(x) + 1
    requires forall e <- events :: counted(e)
    requires inv(s)
    ensures inv(Replay(step, s, events))
    ensures measure(Replay(step, s, events)) == measure(s) + |events|
    decreases |events|
  {
    if |events| > 0 {
      assert counted(events[0]);
      assert forall e <- events[1..] :: e in events;
      ReplayCounts(step, inv, measure, counted, step(s, events[0]), events[1..]);
    }
  }
}

=== FILE: view_state.dfy ===
/**
  The presentation state every Qt window keeps on itself: the label's font size with its
  bounds and default, the fullscreen, pinned and menubar-visible flags, and the two colour
  names of the label's style sheet. Every action is a pure transition on this record.

  Two font-size policies exist side by side:
  - src/window_functions.py `change_font_size` REJECTS a change whose result would leave
    [min, max] (used by src/clock.py, src/stopwatch.py, src/timer.py);
  - RunClock.py `changeFontSize` CLAMPS the result into [min, max].
*/
module ViewState {
  import Transitions

  const DefaultFontSize := 200
  const MinFontSize := 50
  const MaxFontSize := 480
  /** The step of the `+`/`-` keys and of one wheel notch. */
  const FontStep := 5

  datatype View = View(
    fontSize: int,
    minFontSize: int,
    maxFontSize: int,
    defaultFontSize: int,
    fullscreen: bool,
    pinned: bool,
    menubarVisible: bool,
    foreground: string,
    background: string)

  /** The attributes `__init__` sets in the Qt windows; the menubar starts visible. The pinned
      flag starts false: RunClock.py never sets or uses it. */
  const Initial := View(DefaultFontSize, MinFontSize, MaxFontSize, DefaultFontSize,
                        false, false, true, "white", "black")

  predicate FontInRange(v: View) {
    v.minFontSize <= v.fontSize <= v.maxFontSize
  }

  /** The bounds are ordered and the default lies between them. */
  predicate BoundsSound(v: View) {
    v.minFontSize <= v.defaultFontSize <= v.maxFontSize
  }

  lemma InitialSound()
    ensures FontInRange(Initial) && BoundsSound(Initial)
    ensures !Initial.fullscreen && !Initial.pinned
    ensures Initial.foreground == "white" && Initial.background == "black"
  {
  }

  // ---------------------------------------------------------------- font size

  /** src/window_functions.py `change_font_size`: apply the change only when the new size is
      within [min, max] inclusive; otherwise nothing at all happens. */
  function ChangeFontSize(v: View, change: int): (r: View)
    ensures r == v.(fontSize := r.fontSize)
    ensures v.minFontSize <= v.fontSize + change <= v.maxFontSize ==> r.fontSize == v.fontSize + change
    ensures !(v.minFontSize <= v.fontSize + change <= v.maxFontSize) ==> r == v
  {
    var newSize := v.fontSize + change;
    if v.minFontSize <= newSize <= v.maxFontSize then v.(fontSize := newSize) else v
  }

  /** RunClock.py `changeFontSize`: add the delta, then pull a result below the minimum up to
      it, or else one above the maximum down to it. */
  function ClampFontSize(v: View, delta: int): (r: View)
    ensures r == v.(fontSize := r.fontSize)
    ensures v.minFontSize <= v.maxFontSize ==> FontInRange(r)
    ensures v.minFontSize <= v.maxFontSize ==>
              r.fontSize == Max(v.minFontSize, Min(v.maxFontSize, v.fontSize + delta))
  {
    var size := v.fontSize + delta;
    if size < v.minFontSize then v.(fontSize := v.minFontSize)
    else if size > v.maxFontSize then v.(fontSize := v.maxFontSize)
    else v.(fontSize := size)
  }

  function Min(a: int, b: int): int { if a <= b then a else b }
  function Max(a: int, b: int): int { if a >= b then a else b }

  /** `resetFontSize`: back to the default, whatever the size was. */
  function ResetFontSize(v: View): (r: View)
    ensures r.fontSize == v.defaultFontSize
    ensures r == v.(fontSize := r.fontSize)
    ensures BoundsSound(v) ==> FontInRange(r)
  {
    v.(fontSize := v.defaultFontSize)
  }

  /** The rejecting policy never takes a size out of range. */
  lemma ChangeFontSizeKeepsRange(v: View, change: int)
    requires FontInRange(v)
    ensures FontInRange(ChangeFontSize(v, change))
  {
  }

  /** A sequence of `change_font_size` calls. */
  function ApplyChanges(v: View, changes: seq<int>): View {
    Transitions.Replay((x: View, c: int) => ChangeFontSize(x, c), v, changes)
  }

  /** From a size in range, any sequence of changes keeps the size in range, and nothing but
      the size ever moves. */
  lemma {:induction false} ApplyChangesKeepsRange(v: View, changes: seq<int>)
    requires FontInRange(v)
    ensures FontInRange(ApplyChanges(v, changes))
    ensures ApplyChanges(v, changes) == v.(fontSize := ApplyChanges(v, changes).fontSize)
    decreases |changes|
  {
    if |changes| > 0 {
      ChangeFontSizeKeepsRange(v, changes[0]);
      ApplyChangesKeepsRange(ChangeFontSize(v, changes[0]), changes[1..]);
    }
  }

  /** A step up followed by a step down restores the size when both steps stay in range. */
  lemma StepUpThenDown(v: View)
    requires v.fontSize + FontStep <= v.maxFontSize
    requires v.minFontSize <= v.fontSize
    ensures ChangeFontSize(ChangeFontSize(v, FontStep), -FontStep) == v
  {
  }

  /** The two policies agree whenever the new size is in range. When it would overshoot a
      bound, rejection keeps the old size and clamping lands on the bound. */
  lemma PoliciesCompared(v: View, delta: int)
    requires FontInRange(v)
    ensures v.minFontSize <= v.fontSize + delta <= v.maxFontSize ==>
              ChangeFontSize(v, delta) == ClampFontSize(v, delta)
    ensures v.fontSize + delta > v.maxFontSize ==>
              ChangeFontSize(v, delta) == v
              && ClampFontSize(v, delta).fontSize == v.maxFontSize
    ensures v.fontSize + delta < v.minFontSize ==>
              ChangeFontSize(v, delta) == v
              && ClampFontSize(v, delta).fontSize == v.minFontSize
  {
  }

  // ---------------------------------------------------------------- window flags

  /** src/window_functions.py `toggle_fullscreen` (and the windows' own `toggleFullscreen` in
      src/stopwatch.py and src/timer.py): leave fullscreen if in it, enter it otherwise. */
  function ToggleFullscreen(v: View): (r: View)
    ensures r.fullscreen == !v.fullscreen
    ensures r == v.(fullscreen := r.fullscreen)
  {
    if v.fullscreen then v.(fullscreen := false) else v.(fullscreen := true)
  }

  lemma ToggleFullscreenTwice(v: View)
    ensures ToggleFullscreen(ToggleFullscreen(v)) == v
  {
  }

  /** RunClock.py `toggleFullscreen`: as above, and the menubar is shown on leaving
      fullscreen and hidden on entering it. */
  function ToggleFullscreenWithMenubar(v: View): (r: View)
    ensures r.fullscreen == !v.fullscreen
    ensures r.menubarVisible == !r.fullscreen
    ensures r == v.(fullscreen := r.fullscreen, menubarVisible := r.menubarVisible)
  {
    if v.fullscreen then v.(menubarVisible := true, fullscreen := false)
    else v.(menubarVisible := false, fullscreen := true)
  }

  /** Toggling twice restores the fullscreen flag but not necessarily the menubar: a menubar
      hidden with M/T while windowed comes back after entering and leaving fullscreen. */
  lemma ToggleFullscreenWithMenubarTwice(v: View)
    ensures ToggleFullscreenWithMenubar(ToggleFullscreenWithMenubar(v))
            == v.(menubarVisible := !v.fullscreen)
    ensures !v.fullscreen && !v.menubarVisible ==>
              ToggleFullscreenWithMenubar(ToggleFullscreenWithMenubar(v)) != v
  {
  }

  /** RunClock.py Escape: leave fullscreen if in it; otherwise do nothing. */
  function EscapeFullscreen(v: View): (r: View)
    ensures !r.fullscreen
    ensures !v.fullscreen ==> r == v
    ensures v.fullscreen ==> r == ToggleFullscreenWithMenubar(v) && r.menubarVisible
  {
    if v.fullscreen then ToggleFullscreenWithMenubar(v) else v
  }

  /** `toggle_menubar` (and the M/T branch of RunClock.py): flip menubar visibility. */
  function ToggleMenubar(v: View): (r: View)
    ensures r.menubarVisible == !v.menubarVisible
    ensures r == v.(menubarVisible := r.menubarVisible)
  {
    if v.menubarVisible then v.(menubarVisible := false) else v.(menubarVisible := true)
  }

  lemma ToggleMenubarTwice(v: View)
    ensures ToggleMenubar(ToggleMenubar(v)) == v
  {
  }

  /** `togglePinWindow`: flip the stay-on-top flag. */
  function TogglePin(v: View): (r: View)
    ensures r.pinned == !v.pinned
    ensures r == v.(pinned := r.pinned)
  {
    v.(pinned := !v.pinned)
  }

  lemma TogglePinTwice(v: View)
    ensures TogglePin(TogglePin(v)) == v
  {
  }
}

=== FILE: wall_stopwatch.dfy ===
/**
  The Tk stopwatch window of start.py (`StopwatchWindow`). Unlike the Qt windows it measures
  wall-clock time: `start` remembers `start_time = now - elapsed`, every refresh recomputes
  `elapsed = now - start_time`, and `stop` folds the elapsed time back in.

  The clock is the parameter `now`, an integer count of milliseconds; the display truncates
  the elapsed time to whole seconds as Python's `int()` does, toward zero. The label's colour
  follows the state: green while running, red once stopped, white after a reset.
*/
module WallStopwatch {
  import opened Wrappers
  import opened TimeFormat
  import PinTitle

  const MillisPerSecond := 1000

  datatype Rgb = Rgb(red: int, green: int, blue: int)
  const White := Rgb(255, 255, 255)
  const Green := Rgb(0, 255, 0)
  const Red := Rgb(255, 0, 0)

  datatype Label = Label(text: string, colour: Rgb)

  datatype Stopwatch = Stopwatch(running: bool, startTime: Option<int>, elapsed: int, readout: Label)

  /** A running stopwatch knows when its current run started. `stop` leaves the old start
      time in place, so a stopped one may or may not have one. */
  predicate Valid(s: Stopwatch) {
    s.running ==> s.startTime.Some?
  }

  /** The elapsed time a reader would see at `now`: accumulated time while stopped, time since
      the shifted start while running. */
  function Reading(s: Stopwatch, now: int): int
    requires Valid(s)
  {
    if s.running then now - s.startTime.value else s.elapsed
  }

  /** Python's `int()` on a number of seconds given in milliseconds: truncation toward zero. */
  function WholeSeconds(ms: int): (secs: int)
    ensures ms >= 0 ==> 0 <= secs && secs * MillisPerSecond <= ms < (secs + 1) * MillisPerSecond
    ensures ms < 0 ==> secs <= 0 && (secs - 1) * MillisPerSecond < ms <= secs * MillisPerSecond
  {
    if ms >= 0 then ms / MillisPerSecond else -((-ms) / MillisPerSecond)
  }

  /** The text `update_stopwatch` shows: `divmod(int(elapsed), 60)`, then `divmod(minutes, 60)`,
      each field `{:02}`. It is the same text the Qt windows show for the whole seconds. */
  function Display(ms: int): (r: string)
    ensures r == Format(WholeSeconds(ms))
  {
    var secs := WholeSeconds(ms);
    FieldsAgree(secs);
    Join(FieldsByMinutes(secs))
  }

  /** The display reads back as the whole seconds elapsed. */
  lemma DisplayReadsBack(ms: int)
    ensures Parse(Display(ms)) == Some(WholeSeconds(ms))
  {
    FormatRoundTrip(WholeSeconds(ms));
  }

  /** 5.4 seconds show as five seconds. */
  lemma DisplayFiveSeconds()
    ensures Display(5400) == "00:00:05"
  {
    assert WholeSeconds(5400) == 5;
    assert Fields(5) == Hms(0, 0, 5);
    Pad2Small(0);
    Pad2Small(5);
  }

  /** An hour, a minute and a second. */
  lemma DisplayOneOfEach()
    ensures Display(3661 * MillisPerSecond) == "01:01:01"
  {
    assert WholeSeconds(3661 * MillisPerSecond) == 3661;
    assert Fields(3661) == Hms(1, 1, 1);
    Pad2Small(1);
  }

  /** Under a second shows as zero. */
  lemma DisplayUnderASecond()
    ensures Display(999) == "00:00:00"
  {
    assert WholeSeconds(999) == 0;
    FormatZero();
  }

  /** The window as `__init__` leaves it. */
  const Initial := Stopwatch(false, None, 0, Label("00:00:00", White))

  /** `update_stopwatch`: while running, recompute the elapsed time and show it in green;
      otherwise the rescheduled callback does nothing. */
  function UpdateStopwatch(s: Stopwatch, now: int): (r: Stopwatch)
    requires Valid(s)
    ensures Valid(r)
    ensures s.running ==> r.elapsed == Reading(s, now) && r.readout == Label(Display(r.elapsed), Green)
    ensures !s.running ==> r == s
    ensures forall t :: Reading(r, t) == Reading(s, t)
  {
    if s.running then
      var elapsed := now - s.startTime.value;
      s.(elapsed := elapsed, readout := Label(Display(elapsed), Green))
    else s
  }

  /** `start`: only when stopped; shift the start time back by what has already elapsed so
      that the reading continues from it, colour the label green and refresh it. */
  function Start(s: Stopwatch, now: int): (r: Stopwatch)
    requires Valid(s)
    ensures Valid(r) && r.running
    ensures s.running ==> r == s
    ensures !s.running ==> forall t :: Reading(r, t) == s.elapsed + (t - now)
    ensures !s.running ==> r.elapsed == s.elapsed && r.readout == Label(Display(s.elapsed), Green)
  {
    if !s.running then
      var started := s.(running := true, startTime := Some(now - s.elapsed),
                        readout := s.readout.(colour := Green));
      UpdateStopwatch(started, now)
    else s
  }

  /** `stop`: only when running; fold the time since the shifted start into `elapsed` and
      colour the label red, leaving its text (and the stale start time) as they were. */
  function Stop(s: Stopwatch, now: int): (r: Stopwatch)
    requires Valid(s)
    ensures Valid(r) && !r.running
    ensures !s.running ==> r == s
    ensures s.running ==> (r.elapsed == Reading(s, now)
                           && r.readout == Label(s.readout.text, Red)
                           && r.startTime == s.startTime)
  {
    if s.running then
      s.(running := false, elapsed := now - s.startTime.value, readout := s.readout.(colour := Red))
    else s
  }

  /** `reset`: stopped, no start time, nothing elapsed, a white `00:00:00` — whatever came
      before. */
  function Reset(s: Stopwatch): (r: Stopwatch)
    ensures Valid(r) && !r.running && r.startTime.None? && r.elapsed == 0
    ensures r.readout == Label("00:00:00", White)
    ensures r == Initial
  {
    Stopwatch(false, None, 0, Label("00:00:00", White))
  }

  /** `toggle_start_stop` (Space, or the menu entry): stop when running, start otherwise. */
  function ToggleStartStop(s: Stopwatch, now: int): (r: Stopwatch)
    requires Valid(s)
    ensures Valid(r)
    ensures r.running == !s.running
    ensures r.readout.colour == (if r.running then Green else Red)
    ensures s.running ==> r == Stop(s, now) && r.elapsed == Reading(s, now)
    ensures !s.running ==> r == Start(s, now) && forall t :: Reading(r, t) == s.elapsed + (t - now)
  {
    if s.running then Stop(s, now) else Start(s, now)
  }

  /** While running, the elapsed time at any later refresh or stop equals what had elapsed at
      the last start plus the wall-clock time since that start. */
  lemma ElapsedSinceStart(s: Stopwatch, started: int, later: int)
    requires Valid(s) && !s.running
    ensures UpdateStopwatch(Start(s, started), later).elapsed == s.elapsed + (later - started)
    ensures Stop(Start(s, started), later).elapsed == s.elapsed + (later - started)
  {
  }

  /** A stop and a start issued at the same instant lose no time: the elapsed time is kept,
      and every later reading is what it would have been without the pair. */
  lemma StopThenStartSameInstant(s: Stopwatch, now: int)
    requires Valid(s) && s.running
    ensures Start(Stop(s, now), now).elapsed == Stop(s, now).elapsed
    ensures forall t :: Reading(Start(Stop(s, now), now), t) == Reading(s, t)
  {
  }

  /** The reading never goes backwards as wall-clock time moves forwards. */
  lemma ReadingMonotone(s: Stopwatch, earlier: int, later: int)
    requires Valid(s) && earlier <= later
    ensures Reading(s, earlier) <= Reading(s, later)
  {
  }

  // ---------------------------------------------------------------- the window

  /** The bindings and buttons of the window. `Refresh` is the callback `update_stopwatch`
      schedules every 100 ms. */
  datatype Input =
    | StartButton | StopButton | ResetButton
    | SpaceKey | RKey | PKey
    | Refresh

  datatype Window = Window(watch: Stopwatch, pin: PinTitle.PinnedWindow)

  /** `__init__`: stopped, nothing elapsed, no start time, a white `00:00:00`, unpinned and
      titled "Stopwatch". */
  function Opened(): (w: Window)
    ensures Valid(w.watch) && !w.watch.running
    ensures w.watch.elapsed == 0 && w.watch.startTime.None? && w.watch.readout == Label("00:00:00", White)
    ensures !w.pin.pinned && PinTitle.TitleMatches(w.pin)
    ensures w.pin.title == PinTitle.StopwatchTitle
  {
    Window(Initial, PinTitle.Opened(PinTitle.StopwatchTitle))
  }

  /** A freshly opened window reads zero at every instant, and R (or the Reset button) gives
      it back unchanged. */
  lemma OpenedIsReset(now: int)
    ensures forall t :: Reading(Opened().watch, t) == 0
    ensures Handle(Opened(), RKey, now) == Opened()
    ensures Handle(Opened(), ResetButton, now) == Opened()
  {
  }

  /** The buttons and the bindings of start.py: Space toggles, R resets and P pins; the
      Start, Stop and Reset buttons call `start`, `stop` and `reset`. */
  function Handle(w: Window, input: Input, now: int): (r: Window)
    requires Valid(w.watch)
    ensures Valid(r.watch)
    ensures input != PKey ==> r.pin == w.pin
    ensures input == PKey ==> r.watch == w.watch && r.pin == PinTitle.TogglePinKeyboard(w.pin)
    ensures input == SpaceKey ==> r.watch == ToggleStartStop(w.watch, now)
    ensures input == RKey || input == ResetButton ==> r.watch == Reset(w.watch)
    ensures input == StartButton ==> r.watch == Start(w.watch, now)
    ensures input == StopButton ==> r.watch == Stop(w.watch, now)
    ensures input == Refresh ==> r.watch == UpdateStopwatch(w.watch, now)
  {
    match input
    case StartButton => w.(watch := Start(w.watch, now))
    case StopButton => w.(watch := Stop(w.watch, now))
    case ResetButton => w.(watch := Reset(w.watch))
    case SpaceKey => w.(watch := ToggleStartStop(w.watch, now))
    case RKey => w.(watch := Reset(w.watch))
    case PKey => w.(pin := PinTitle.TogglePinKeyboard(w.pin))
    case Refresh => w.(watch := UpdateStopwatch(w.watch, now))
  }

  /** Only a reset changes the reading at the instant an input arrives. */
  lemma HandleKeepsReading(w: Window, input: Input, now: int)
    requires Valid(w.watch) && input != ResetButton && input != RKey
    ensures Reading(Handle(w, input, now).watch, now) == Reading(w.watch, now)
  {
  }

  datatype Timed = Timed(input: Input, at: int)

  /** Inputs arrive no earlier than `from` and in time order. */
  predicate Chronological(events: seq<Timed>, from: int) {
    && (|events| > 0 ==> from <= events[0].at)
    && forall i :: 0 < i < |events| ==> events[i - 1].at <= events[i].at
  }

  function Replay(w: Window, events: seq<Timed>): (r: Window)
    requires Valid(w.watch)
    ensures Valid(r.watch)
    decreases |events|
  {
    if |events| == 0 then w else Replay(Handle(w, events[0].input, events[0].at), events[1..])
  }

  predicate NoReset(events: seq<Timed>) {
    forall i :: 0 <= i < |events| ==> events[i].input != ResetButton && events[i].input != RKey
  }

  /** Without a reset, and with the clock never going backwards, the reading at the end of any
      sequence of inputs is at least the reading at the start. */
  lemma {:induction false} ReplayReadingMonotone(w: Window, events: seq<Timed>, from: int, until: int)
    requires Valid(w.watch)
    requires Chronological(events, from) && NoReset(events)
    requires forall i :: 0 <= i < |events| ==> events[i].at <= until
    requires from <= until
    ensures Reading(Replay(w, events).watch, until) >= Reading(w.watch, from)
    decreases |events|
  {
    if |events| > 0 {
      var e := events[0];
      var next := Handle(w, e.input, e.at);
      ReadingMonotone(w.watch, from, e.at);
      HandleKeepsReading(w, e.input, e.at);
      assert Chronological(events[1..], e.at);
      ReplayReadingMonotone(next, events[1..], e.at, until);
    }
  }
}

=== FILE: window_events.dfy ===
/**
  Keyboard, wheel and mouse dispatch of the four Qt windows: the clock of src/clock.py, the
  stand-alone clock of RunClock.py, the stopwatch of src/stopwatch.py and the count-up
  "timer" of src/timer.py. Each handler maps an input to one transition of the view record
  (and, in the stopwatch and timer, of the tick counter).

  Help keys open a modal message box and change no state; keys a window does not bind are
  ignored; `Timeout` is the window's `QTimer` firing.
*/
module WindowEvents {
  import opened ViewState
  import opened Transitions
  import TickWatch

  datatype Key =
    | F | F11 | Space | R | Plus | Equal | Minus | Underscore | P
    | Zero | F5 | T | M | Slash | Question | F1 | Escape | OtherKey

  datatype Button = LeftButton | MiddleButton | RightButton

  datatype Event =
    | KeyPress(key: Key)
    | Wheel(delta: int)
    | MousePress(button: Button)
    | DoubleClick(button: Button)
    | Timeout

  const FullscreenKeys: set<Key> := {F, F11}
  const IncreaseKeys: set<Key> := {Plus, Equal}
  const DecreaseKeys: set<Key> := {Minus, Underscore}
  const FontResetKeys: set<Key> := {Zero, F5}
  const MenubarKeys: set<Key> := {T, M}
  const HelpKeys: set<Key> := {Slash, Question, F1}
  const FontKeys: set<Key> := IncreaseKeys + DecreaseKeys + FontResetKeys

  /** The font change one wheel event requests: a step up for a positive vertical angle
      delta, a step down for any other delta, zero included. */
  function WheelStep(delta: int): (step: int)
    ensures step == FontStep || step == -FontStep
    ensures step > 0 <==> delta > 0
  {
    if delta > 0 then FontStep else -FontStep
  }

  /** The font size is in range and the bounds are sound: true of every window at start-up
      and kept by every input. */
  predicate Sized(v: View) {
    FontInRange(v) && BoundsSound(v)
  }

  predicate SameBounds(a: View, b: View) {
    a.minFontSize == b.minFontSize && a.maxFontSize == b.maxFontSize
    && a.defaultFontSize == b.defaultFontSize
  }

  // ---------------------------------------------------------------- src/clock.py

  /** src/clock.py `keyPressEvent`. */
  function ClockKey(v: View, k: Key): (r: View)
    ensures SameBounds(r, v) && (Sized(v) ==> Sized(r))
    ensures r.foreground == v.foreground && r.background == v.background
    ensures r.pinned != v.pinned <==> k == P
    ensures r.fullscreen != v.fullscreen <==> k in FullscreenKeys
    ensures r.menubarVisible != v.menubarVisible <==> k in MenubarKeys
    ensures r.fontSize != v.fontSize ==> k in FontKeys
    ensures k in IncreaseKeys ==> r == ChangeFontSize(v, FontStep)
    ensures k in DecreaseKeys ==> r == ChangeFontSize(v, -FontStep)
    ensures k in FontResetKeys ==> r == ResetFontSize(v)
    ensures k in HelpKeys ==> r == v
  {
    if k in FullscreenKeys then ToggleFullscreen(v)
    else if k == P then TogglePin(v)
    else if k in IncreaseKeys then ChangeFontSize(v, FontStep)
    else if k in DecreaseKeys then ChangeFontSize(v, -FontStep)
    else if k in FontResetKeys then ResetFontSize(v)
    else if k in MenubarKeys then ToggleMenubar(v)
    else v
  }

  /** src/clock.py: keys and the wheel; this window has no mouse-button handlers, and its
      timer only redraws the time. */
  function ClockHandle(v: View, e: Event): (r: View)
    ensures SameBounds(r, v) && (Sized(v) ==> Sized(r))
    ensures e.KeyPress? ==> r == ClockKey(v, e.key)
    ensures e.Wheel? ==> r == ChangeFontSize(v, WheelStep(e.delta))
    ensures e.MousePress? || e.DoubleClick? || e.Timeout? ==> r == v
  {
    match e
    case KeyPress(k) => ClockKey(v, k)
    case Wheel(delta) => ChangeFontSize(v, WheelStep(delta))
    case _ => v
  }

  /** A wheel notch up and then one down give back the size whenever both stay in range. */
  lemma WheelUpThenDown(v: View, up: int, down: int)
    requires up > 0 && down <= 0
    requires v.minFontSize <= v.fontSize && v.fontSize + FontStep <= v.maxFontSize
    ensures ClockHandle(ClockHandle(v, Wheel(up)), Wheel(down)) == v
  {
    StepUpThenDown(v);
  }

  /** Pressing P twice in the clock restores the pinned flag and everything else. */
  lemma ClockPinTwice(v: View)
    ensures ClockKey(ClockKey(v, P), P) == v
  {
  }

  /** No sequence of inputs moves the clock's font size out of [50, 480]. */
  lemma ClockStaysSized(events: seq<Event>)
    ensures Sized(Replay(ClockHandle, ViewState.Initial, events))
    ensures MinFontSize <= Replay(ClockHandle, ViewState.Initial, events).fontSize <= MaxFontSize
  {
    ReplayPreserves(ClockHandle, Sized, ViewState.Initial, events);
    ReplayKeepsBounds(ClockHandle, ViewState.Initial, events);
  }

  /** The bounds and the default never change, whatever the inputs. */
  lemma ReplayKeepsBounds(step: (View, Event) -> View, v: View, events: seq<Event>)
    requires forall x, e :: SameBounds(step(x, e), x)
    ensures SameBounds(Replay(step, v, events), v)
  {
    ReplayPreserves(step, (x: View) => SameBounds(x, v), v, events);
  }

  // ---------------------------------------------------------------- RunClock.py

  /** RunClock.py `keyPressEvent`: clamping font keys, fullscreen coupled to the menubar,
      and Escape; no pin key. */
  function RunClockKey(v: View, k: Key): (r: View)
    ensures SameBounds(r, v) && (Sized(v) ==> Sized(r))
    ensures r.foreground == v.foreground && r.background == v.background
    ensures r.pinned == v.pinned
    ensures r.fullscreen != v.fullscreen <==> k in FullscreenKeys || (k == Escape && v.fullscreen)
    ensures r.fontSize != v.fontSize ==> k in FontKeys
    ensures k in IncreaseKeys ==> r == ClampFontSize(v, FontStep)
    ensures k in DecreaseKeys ==> r == ClampFontSize(v, -FontStep)
    ensures k in FontResetKeys ==> r == ResetFontSize(v)
    ensures k in MenubarKeys ==> r == ToggleMenubar(v)
    ensures k in FullscreenKeys ==> r.menubarVisible == !r.fullscreen
    ensures k == Escape ==> r == EscapeFullscreen(v)
    ensures k == Escape ==> !r.fullscreen && (!v.fullscreen ==> r == v)
    ensures k !in FullscreenKeys + FontKeys + MenubarKeys + {Escape} ==> r == v
  {
    if k in FullscreenKeys then ToggleFullscreenWithMenubar(v)
    else if k in DecreaseKeys then ClampFontSize(v, -FontStep)
    else if k in IncreaseKeys then ClampFontSize(v, FontStep)
    else if k in FontResetKeys then ResetFontSize(v)
    else if k in HelpKeys then v
    else if k in MenubarKeys then ToggleMenubar(v)
    else if k == Escape then EscapeFullscreen(v)
    else v
  }

  /** RunClock.py: keys, the wheel (clamping), middle button resets the font size, left
      double click toggles fullscreen. */
  function RunClockHandle(v: View, e: Event): (r: View)
    ensures SameBounds(r, v) && (Sized(v) ==> Sized(r))
    ensures e.Wheel? ==> r == ClampFontSize(v, WheelStep(e.delta))
    ensures e == MousePress(MiddleButton) ==> r == ResetFontSize(v)
    ensures e == DoubleClick(LeftButton) ==> r == ToggleFullscreenWithMenubar(v)
    ensures e.KeyPress? ==> r == RunClockKey(v, e.key)
    ensures e.MousePress? && e.button != MiddleButton ==> r == v
    ensures e.DoubleClick? && e.button != LeftButton ==> r == v
    ensures e.Timeout? ==> r == v
  {
    match e
    case KeyPress(k) => RunClockKey(v, k)
    case Wheel(delta) => ClampFontSize(v, WheelStep(delta))
    case MousePress(b) => if b == MiddleButton then ResetFontSize(v) else v
    case DoubleClick(b) => if b == LeftButton then ToggleFullscreenWithMenubar(v) else v
    case Timeout => v
  }

  /** From a sized view, no sequence of RunClock inputs (keys, wheel, mouse, ticks) takes
      the font out of range. */
  lemma RunClockStaysSized(v: View, events: seq<Event>)
    requires Sized(v)
    ensures Sized(Replay(RunClockHandle, v, events))
  {
    ReplayPreserves(RunClockHandle, Sized, v, events);
  }

  /** At the maximum the clamping wheel stays there: a notch up changes nothing. */
  lemma RunClockWheelSaturates(v: View, delta: int)
    requires Sized(v) && v.fontSize == v.maxFontSize && delta > 0
    ensures RunClockHandle(v, Wheel(delta)) == v
  {
  }

  // ---------------------------------------------------------------- src/stopwatch.py, src/timer.py

  datatype WatchWindow = WatchWindow(view: View, watch: TickWatch.TickWatch)

  /** Both windows at start-up: the shared initial view, the counter rendered once. */
  function WatchInitial(): (w: WatchWindow)
    ensures w.view == ViewState.Initial && WatchInvariant(w)
    ensures !w.watch.running && w.watch.elapsed == 1 && w.watch.text == "00:00:00"
  {
    WatchWindow(ViewState.Initial, TickWatch.Initial())
  }

  predicate WatchInvariant(w: WatchWindow) {
    Sized(w.view) && TickWatch.Consistent(w.watch)
  }

  /** src/stopwatch.py `keyPressEvent`. Its view keys behave exactly as the clock's. */
  function StopwatchKey(w: WatchWindow, k: Key): (r: WatchWindow)
    ensures r.view == ClockKey(w.view, k)
    ensures k == Space ==> r.watch == TickWatch.Toggle(w.watch)
    ensures k == R ==> r.watch == TickWatch.Initial()
    ensures k != Space && k != R ==> r.watch == w.watch
  {
    if k in FullscreenKeys then w.(view := ToggleFullscreen(w.view))
    else if k == Space then w.(watch := TickWatch.Toggle(w.watch))
    else if k == R then w.(watch := TickWatch.Reset(w.watch))
    else if k in IncreaseKeys then w.(view := ChangeFontSize(w.view, FontStep))
    else if k in DecreaseKeys then w.(view := ChangeFontSize(w.view, -FontStep))
    else if k == P then w.(view := TogglePin(w.view))
    else if k in FontResetKeys then w.(view := ResetFontSize(w.view))
    else if k in MenubarKeys then w.(view := ToggleMenubar(w.view))
    else w
  }

  /** src/timer.py `keyPressEvent`: as the stopwatch's, except that it has no P binding. */
  function TimerKey(w: WatchWindow, k: Key): (r: WatchWindow)
    ensures k != P ==> r == StopwatchKey(w, k)
    ensures k == P ==> r == w
    ensures k == R ==> !r.watch.running && r.watch.text == "00:00:00" && r.watch.elapsed == 1
  {
    if k in FullscreenKeys then w.(view := ToggleFullscreen(w.view))
    else if k == Space then w.(watch := TickWatch.Toggle(w.watch))
    else if k == R then w.(watch := TickWatch.Reset(w.watch))
    else if k in IncreaseKeys then w.(view := ChangeFontSize(w.view, FontStep))
    else if k in DecreaseKeys then w.(view := ChangeFontSize(w.view, -FontStep))
    else if k in FontResetKeys then w.(view := ResetFontSize(w.view))
    else if k in MenubarKeys then w.(view := ToggleMenubar(w.view))
    else w
  }

  /** The non-key inputs both windows share: wheel, middle button, left double click, and
      the one-second timer. */
  function WatchMouseOrTick(w: WatchWindow, e: Event): (r: WatchWindow)
    requires !e.KeyPress?
    ensures e.Wheel? ==> r == w.(view := ChangeFontSize(w.view, WheelStep(e.delta)))
    ensures e == MousePress(MiddleButton) ==> r == w.(view := ResetFontSize(w.view))
    ensures e == DoubleClick(LeftButton) ==> r == w.(view := ToggleFullscreen(w.view))
    ensures e.MousePress? && e.button != MiddleButton ==> r == w
    ensures e.DoubleClick? && e.button != LeftButton ==> r == w
    ensures e.Timeout? ==> r == w.(watch := TickWatch.Tick(w.watch))
  {
    match e
    case Wheel(delta) => w.(view := ChangeFontSize(w.view, WheelStep(delta)))
    case MousePress(b) => if b == MiddleButton then w.(view := ResetFontSize(w.view)) else w
    case DoubleClick(b) => if b == LeftButton then w.(view := ToggleFullscreen(w.view)) else w
    case Timeout => w.(watch := TickWatch.Tick(w.watch))
  }

  function StopwatchHandle(w: WatchWindow, e: Event): WatchWindow {
    if e.KeyPress? then StopwatchKey(w, e.key) else WatchMouseOrTick(w, e)
  }

  function TimerHandle(w: WatchWindow, e: Event): WatchWindow {
    if e.KeyPress? then TimerKey(w, e.key) else WatchMouseOrTick(w, e)
  }

  /** Every stopwatch input keeps the font in range and the label one behind the counter. */
  lemma StopwatchHandleKeepsInvariant(w: WatchWindow, e: Event)
    requires WatchInvariant(w)
    ensures WatchInvariant(StopwatchHandle(w, e))
  {
    match e
    case KeyPress(k) =>
      if k == Space {
        TickWatch.StepKeepsConsistent(w.watch, TickWatch.StartStop);
      } else if k == R {
        TickWatch.StepKeepsConsistent(w.watch, TickWatch.ResetPressed);
      }
    case Timeout =>
      TickWatch.StepKeepsConsistent(w.watch, TickWatch.Timeout);
    case _ =>
  }

  /** Every timer input keeps the font in range and the label one behind the counter. */
  lemma TimerHandleKeepsInvariant(w: WatchWindow, e: Event)
    requires WatchInvariant(w)
    ensures WatchInvariant(TimerHandle(w, e))
  {
    if e.KeyPress? && e.key == P {
      assert TimerHandle(w, e) == w;
    } else {
      StopwatchHandleKeepsInvariant(w, e);
    }
  }

  /** In either window, after any sequence of inputs the font is in range and the label
      shows one less than the counter. */
  lemma WatchWindowsStayConsistent(events: seq<Event>)
    ensures WatchInvariant(Replay(StopwatchHandle, WatchInitial(), events))
    ensures WatchInvariant(Replay(TimerHandle, WatchInitial(), events))
  {
    forall w, e | WatchInvariant(w)
      ensures WatchInvariant(StopwatchHandle(w, e)) && WatchInvariant(TimerHandle(w, e))
    {
      StopwatchHandleKeepsInvariant(w, e);
      TimerHandleKeepsInvariant(w, e);
    }
    ReplayPreserves(StopwatchHandle, WatchInvariant, WatchInitial(), events);
    ReplayPreserves(TimerHandle, WatchInvariant, WatchInitial(), events);
  }

  /** R resets the timer whether it was running or not. */
  lemma TimerResetEitherWay(w: WatchWindow)
    ensures TimerKey(w, R) == TimerKey(w.(watch := w.watch.(running := !w.watch.running)), R)
  {
  }
}

=== FILE: wrappers.dfy ===
/** Optional values: a dialog that may be cancelled, a timestamp that may be unset,
    a parse that may fail. */
module Wrappers {

  datatype Option<+T> = None | Some(value: T)
}
